=== FILE: README.md ===
# sys230-passwords vault engine, modelled in Dafny

This project models the core of a small password vault. Its window (tkinter) passes the user's typed replies to the engine.

- `System` is the vault engine. It has two revisions:
  - `OS_interface4.py` is the main machine.
  - `OS_interface2.py` keeps an earlier `fileDecrypt` that allows only one attempt.
- `Data_Manager` (`Dataframe.py`) manages the records.

A `System` instance is constructed with a file name and a security-question flag. Before any file is touched, the name goes through a platform-dependent legality check. On first run, provisioning creates four artefacts:

- a symmetric key (`key.key`);
- the digest of a master password (`mpass.txt`);
- an empty vault (`password.csv`);
- security questions with the digests of their answers (`security.csv`).

Opening a vault file authenticates the user against the stored digest. When the password is wrong, the user can type "HELP" and answer one randomly chosen security question instead. The file is then decrypted in place and read as a data frame. Closing writes the frame back as csv and encrypts it. For the security file, closing digests the answer row instead. A factory reset deletes the instance's file and the four artefacts, keeps every other file, and provisions again. The record manager adds, retrieves and removes `(Username, Password)` rows and generates random passwords.

The model is purely functional:

- The working directory is a `map<string, string>` from file name to contents.
- The user's replies to `input` are a scripted `seq<string>`, consumed in order.
- Together these two form a `World`.
- Every engine operation maps a `World` to an `Outcome`. The outcome either returns a value or raises an error. In both cases it carries the world as it is at that moment, so a file written before a raise stays written.

The cryptographic and pandas primitives are opaque parameters, bundled in the `Primitives` datatype:

- `digest` stands for `str(strHash(.))`, the SHA-256 digest as Python prints it.
- `validKey` says whether `Fernet(key)` accepts the text of key.key. It raises ValueError when it does not.
- `encrypt` and `decrypt` are Fernet. `decrypt` returns `None` for an invalid token.
- `writeCsv` and `readCsv` are the csv layer. `readCsv` returns `None` when the file holds no data.

Randomness is also passed in as parameters:

- `freshKey` is the key that `Fernet.generate_key` returns.
- `draw` is any natural number. The drawn column is `draw % width`, which can be each of the columns that `random.randint(0, width - 1)` can return.
- The sample in `pwrandom` is a nondeterministic choice.

The platform that `sys.platform` reports is a parameter of the legality check.

Modules:

- `Common`: `Option`, `Result`, and the error kinds `System` and `Data_Manager` raise.
- `Legality`: `checkLegality`.
- `Primitives`: the opaque primitives, and the round-trip property assumed of the cipher.
- `Machine`: the file system, the scripted input and outcomes.
- `Provisioning`: `firstTime`.
- `Vault`: constructor, `SecQ`, `fileDecrypt` (both revisions), `fileOpen`, `fileEncrypt`, `fileClose`, `factoryReset`.
- `VaultProperties`: properties spanning several operations.
- `Records`: `Data_Manager.add`, `remove`, `retrieve`.
- `PasswordGen`: `Data_Manager.pwrandom`.

Behaviour of the code that a reader might not expect, and that the model keeps:

- On linux, `checkLegality` evaluates `len(name > 255)`. That raises TypeError for every name other than "/", "NUL" (in any case) and "". On darwin, only whole names are compared with the list, so a name that merely contains '/' or ':' is legal.
- `remove` calls `int()` on the array of matching index labels. It raises TypeError unless exactly one row matches.
- `factoryReset` deletes five names: the instance's own file and the four artefacts. Provisioning then recreates only the four artefacts, so a custom-named instance file is gone afterwards.
- `fileClose` checks only that its argument is a data frame. For the security file, a frame with fewer than two rows fails with IndexError at the answer row.
- `fileClose` on a password file writes the csv before `fileEncrypt` hands key.key to `Fernet`. If key.key is missing or not a valid Fernet key, the call raises after the plaintext csv is already on disk. One such case is an instance named "key.key" itself, whose csv overwrites the key.

## Model

| member | source | states |
|---|---|---|
| Legality.CheckLegality | OS_interface4.py:168-194 | Every platform except linux answers. Linux never answers "legal". Unsupported platforms accept every name. On win32, darwin and linux, a name judged legal is non-empty and at most 255 characters long. |
| Legality.WindowsRule | OS_interface4.py:174-182 | A name is legal on win32 exactly when four conditions hold. It contains none of the ten forbidden characters. It is non-empty. Upper-cased, it is not CON, PRN, AUX, NUL, or COM1-9 or LPT1-9. It is at most 255 characters long and does not end in '.'. Both directions are proved. |
| Legality.DeviceNames | OS_interface4.py:169-171 | Apart from the illegal-character string, the Windows list holds exactly the empty name and the device names, as `IsDeviceName` defines them. |
| Legality.NumberedDevice | OS_interface4.py:169-171 | Every COM or LPT name followed by a digit 1-9 is on the Windows list. |
| Legality.CaseInsensitive | OS_interface4.py:179-189 | For the ASCII upper-casing the model uses, a name and its upper-case form get the same verdict on every platform. |
| Legality.DarwinComparesWholeNames | OS_interface4.py:183-187 | On darwin, "a/b" and "a:b" are legal, because only whole names are compared. "nul" and the empty name are illegal. |
| Legality.DarwinRule | OS_interface4.py:183-187 | On darwin, the check always answers. A name is legal exactly when it is non-empty, at most 255 characters long, and none of "/", ":" or "NUL" in any case. |
| Legality.LinuxRaisesForOrdinaryNames | OS_interface4.py:188-192 | On linux, the check raises TypeError exactly when the name is not "/", "NUL" (in any case) or empty. |
| Legality.WindowsRejects | OS_interface4.py:174-180 | On win32, CON, lpt7, a name with '\|', a name with a trailing dot and a 256-character name are all illegal. |
| Legality.WindowsAccepts | OS_interface4.py:174-182 | On win32, "passwords.csv" is legal. |
| Machine.Prompt | OS_interface4.py:143 | One reply is consumed and the files are unchanged. An exhausted script raises. The reply followed by the remaining script is the original script. |
| Provisioning.Collect | OS_interface4.py:151-160 | When "stop" is reached, the collected pairs contain no "stop" question. The pairs' replies, then "stop", then the rest make up exactly the original script. |
| Provisioning.CollectInvertsScript | OS_interface4.py:150-160 | Collection is the inverse of typing pairs followed by "stop": it returns exactly those pairs and the rest of the script. |
| Provisioning.SecurityRows | OS_interface4.py:161-162 | There are two rows of equal length. Row 0 holds the questions in order. Row 1 holds the digest of each answer. |
| Provisioning.ProvisionKey | OS_interface4.py:132-139 | The key file exists afterwards, and a missing key becomes the fresh key. No other file is added or changed. |
| Provisioning.ProvisionMaster | OS_interface4.py:142-144 | An existing master file means nothing happens. Otherwise one reply is consumed and its digest is stored. Exhausted input raises with the world unchanged. |
| Provisioning.ProvisionVault | OS_interface4.py:147-149 | A missing vault file is created empty. Nothing else changes. |
| Provisioning.ProvisionSecurity | OS_interface4.py:150-166 | An existing security file means nothing happens. Otherwise security.csv is the only file added. The remaining replies are a suffix of the script. |
| Provisioning.ProvisionRest | OS_interface4.py:141-166 | The last three steps add no file other than mpass.txt, password.csv and security.csv, and change no existing file. When all three already exist, nothing happens. |
| Provisioning.FirstTime | OS_interface4.py:131-166 | Existing files are preserved. Only the four artefacts can be added, and all four exist on success. A missing key becomes the fresh key. A missing master file becomes the digest of the first reply. A missing vault becomes empty. With all four present, nothing happens. With the master and security files present, no reply is read. |
| Vault.Init | OS_interface4.py:115-122 | An illegal name raises before any file is touched, and so does a name the check raises on. With a legal name and mpass.txt, key.key and the instance file all present, construction succeeds and changes nothing. With any of them missing, construction ends exactly as provisioning does: same world, and success exactly when provisioning succeeds. Success then means all four artefacts exist. A legal name can only fail on exhausted input. On success, the instance file exists exactly when it existed before or is one of the four artefacts. |
| Vault.PickColumn | OS_interface4.py:296 | The chosen column is always inside the table. Every column can be chosen. |
| Vault.SecQ | OS_interface4.py:294-301 | Files are never written. A missing security file raises. A result means the table has an answer row covering the chosen column, one reply was consumed, and the result is true exactly when the reply's digest equals the stored cell. |
| Vault.Authenticate | OS_interface4.py:255-276 | Files are never written. A correct password gets through after one reply. A wrong password followed by anything but "HELP" raises MasterPasswordError after two replies. After "HELP", it succeeds exactly when the security question is answered correctly. A wrong answer raises MasterPasswordError, and any error the security question raises propagates unchanged. An empty script raises EOF. Success needs a reply whose digest matches, or a wrong one followed by "HELP" and an answer. |
| Vault.DecryptFile | OS_interface4.py:277-292 | It succeeds exactly when key.key exists, `Fernet` accepts it, the instance file exists and its contents decrypt. It then replaces only the instance file, with its plaintext. A missing key.key or a missing instance file raises FileNotFoundError for that file. An invalid key raises ValueError. A token the cipher refuses raises InvalidToken. On a raise, nothing changes. An empty file is left as it is, without the cipher being asked. |
| Vault.FileDecrypt4 | OS_interface4.py:255-292 | It raises whatever authentication raises. MasterPasswordError is raised only when authentication fails, so a file that cannot be decrypted never looks like a wrong password. It succeeds exactly when authentication succeeds and the file is decryptable, and then only the instance file changes, to its plaintext. When it raises, no file has been written. |
| Vault.FileDecrypt2 | OS_interface2.py:271-301 | Exactly one reply is read. It succeeds exactly when that reply's digest matches mpass.txt and the file is decryptable, and then only the instance file changes, to its plaintext. A wrong password raises MasterPasswordError with no recovery path, and MasterPasswordError is raised for nothing else. On a raise, no file is written. |
| Vault.FileDecrypt | OS_interface4.py:255-292 | In either revision, it succeeds exactly when that revision's authentication lets the user through and the file is decryptable. On success, only the instance file changes, to its plaintext. MasterPasswordError means that the revision's authentication refused the user. A raise leaves the files untouched. |
| Vault.FileOpen | OS_interface4.py:202-212 | A missing instance file raises FileDoesNotExist. The security file is read as it stands, with no reply consumed. A password file is opened exactly when authentication lets the user through and the file is decryptable. It is then decrypted in place and read from its plaintext. A file with no data reads as the empty frame with columns Username and Password. Otherwise the frame holds the csv rows. MasterPasswordError is raised only for a password file whose authentication fails. A raise leaves the files untouched. |
| Vault.FileEncrypt | OS_interface4.py:235-253 | It succeeds exactly when key.key exists, `Fernet` accepts it, and the instance file exists. It then replaces only the instance file, with its encryption under that key. An invalid key raises ValueError and changes nothing. |
| Vault.Rehash | OS_interface4.py:221 | Every cell of row 1 is replaced by its digest. All other rows are unchanged. |
| Vault.FileClose | OS_interface4.py:214-222 | A value that is not a frame raises PandasError before anything is written. A password file is written as csv and then encrypted. This succeeds exactly when key.key, after that write, exists and is a valid key. When encryption raises, the plaintext csv stays on disk. A security frame with fewer than two rows raises IndexError. With two or more rows, the close succeeds and writes the csv of the frame with row 1 digested. No other file changes. |
| Vault.FactoryReset | OS_interface4.py:303-314 | Afterwards the key is the fresh key. On success, the master file is the digest of the first reply, the vault is empty and all four artefacts exist. A custom-named instance file is gone. Every file outside the five deleted names is untouched. |
| VaultProperties.ProvisionStoresQuestions | OS_interface4.py:150-166 | When only security.csv is missing, provisioning writes exactly the typed questions and the digests of their answers, and leaves exactly the replies after "stop". |
| VaultProperties.MasterPasswordAccepted | OS_interface4.py:142-144 | The password chosen at provisioning is accepted by the next authentication, which reads nothing else. |
| VaultProperties.WrongPasswordRejected | OS_interface4.py:260-276 | A wrong password followed by a reply other than "HELP" raises MasterPasswordError. Neither authentication nor the later `fileDecrypt` touches a file. |
| VaultProperties.RecoveryOneQuestion | OS_interface4.py:265-274 | With one stored question, the exact answer gets through recovery. An answer with a different digest raises MasterPasswordError. |
| VaultProperties.CloseThenDecryptRestores | OS_interface4.py:214-292 | Assume the cipher round-trips. Close a password file, then decrypt it after that revision's authentication lets the user through, in either revision. The decrypt succeeds and restores exactly the csv text that was written. Every other file stays as it was before closing. |
| VaultProperties.PlaintextOfToken | OS_interface4.py:284-287 | Under an accepted key and the cipher's round-trip property, the plaintext of a token is exactly the data it encrypted. |
| VaultProperties.CloseThenOpenRestores | OS_interface4.py:202-219 | Assume the cipher round-trips and the csv layer reads back the closed rows. Closing a password file and opening it again, after authentication lets the user through, succeeds and returns exactly the rows that were closed. |
| VaultProperties.SecurityReopenRehashes | OS_interface4.py:202-222 | Opening the security file and closing the same frame digests the stored digests again. The next recovery compares the reply's digest with the digest of the old stored digest. |
| VaultProperties.InitFromScratch | OS_interface4.py:115-166 | Take a legal name, a directory without the four artefacts, and replies of a password, questions and "stop". Construction then adds exactly the new key, that password's digest, an empty vault and those questions. It keeps every other file and leaves exactly the later replies. |
| VaultProperties.FactoryResetReprovisions | OS_interface4.py:303-314 | A reset answered with a password, questions and "stop" ends with the untouched other files, the new key, that password's digest, an empty vault and those questions. It leaves exactly the later replies. |
| VaultProperties.ProvisionFromScratch | OS_interface4.py:141-166 | With mpass.txt, password.csv and security.csv all missing, the last three provisioning steps consume the password, the pairs and "stop". They write exactly those three files: the password's digest, an empty vault and the questions with their answer digests. |
| Records.SetRow | Dataframe.py:14 | The table keeps its length when the label is already present and grows by exactly one row otherwise. Afterwards it holds exactly the new row and the old rows that carry other labels. |
| Records.Add | Dataframe.py:11-14 | On a table labelled 0..n-1, the row is appended with label n and the labelling stays 0..n-1. Unique labels stay unique. The table grows exactly when label n is free. |
| Records.Retrieve | Dataframe.py:38-39 | The result has as many rows as there are matches. A row is in the result exactly when it is in the table with that username. |
| Records.RetrieveConcat | Dataframe.py:38-39 | Retrieving from two tables joined end to end gives the rows retrieved from the first, followed by those retrieved from the second. Table order is kept. |
| Records.RetrieveOne | Dataframe.py:38-39 | A single row is retrieved exactly when its Username matches. With RetrieveConcat, this fixes the result of retrieve on every table. |
| Records.DropLabel | Dataframe.py:20 | A row survives exactly when it does not carry the label. The table shrinks whenever the label is present. |
| Records.Remove | Dataframe.py:16-20 | It succeeds exactly when exactly one row matches. Otherwise it raises TypeError. Success shrinks the table. |
| Records.RetrieveSingle | Dataframe.py:38-39 | With exactly one match, retrieval returns exactly that row. |
| Records.DropOwnLabel | Dataframe.py:20 | With unique labels, dropping row i's label removes row i and nothing else. |
| Records.RemoveDropsMatch | Dataframe.py:16-20 | With unique labels, a successful remove deletes exactly the matching row and keeps the other rows in order. |
| Records.RemoveThenRetrieve | Dataframe.py:16-39 | After a successful remove, retrieving the same user finds nothing, and labels stay unique. |
| Records.AliceLifecycle | Dataframe.py:11-39 | Adding alice, retrieving her single row, removing her and retrieving again gives nothing. |
| Records.DuplicateRemoveRaises | Dataframe.py:16-20 | Two records for one user make remove raise TypeError instead of choosing one. |
| Records.AddAfterRemoveOverwrites | Dataframe.py:11-20 | After removing the middle of three rows, the next add writes at label 2, which is still in use. It overwrites the last row instead of growing the table. |
| PasswordGen.PoolFacts | Dataframe.py:26-31 | The pool has 94 characters, no character appears twice, and its characters are exactly the printable ASCII characters other than the space. |
| PasswordGen.PwRandom | Dataframe.py:22-36 | A negative length, or one larger than 94, raises ValueError. Otherwise the result has exactly the requested length, its characters are distinct, and each is from the pool. |

## Left out

- `UI.py` (the tkinter window, which feeds replies to `get_input` and retries authentication after MasterPasswordError) is not part of this model. Neither is the `print` output of any operation.
- Cryptography internals are not modelled. SHA-256, Fernet and the key check made by `Fernet(almostKey)` are opaque parameters. Only the cipher's round-trip property, for accepted keys, is assumed, and only by `VaultProperties.PlaintextOfToken`, `VaultProperties.CloseThenDecryptRestores` and `VaultProperties.CloseThenOpenRestores`. Nothing requires the generated key to pass the key check.
- The real file system is not modelled: file modes, the `'x'` create mode, bytes versus text, and `os.listdir`. `fileExists` is map membership. `fileCreate` is inlined where provisioning uses it. `fileNameGet` only returns the stored name and is not modelled.
- The csv format itself is not modelled. `to_csv` and `read_csv` are opaque parameters, so ragged rows, NaN cells and `dtype=str` conversions are left out. The width `SecQ` draws from is the length of the first row.
- `Legality.Upper` is ASCII-only: non-ASCII case mappings of `str.upper` are left out.
- Legality.CaseInsensitive: holds only for ASCII upper-casing. Python's `str.upper` can change a name's length ("ß" becomes "SS", "ﬁ" becomes "FI"), so a 128-character name of "ß" is legal on win32 and darwin while its 256-character upper-case form is not.
- `input` is the scripted reply list. An exhausted script is modelled as an EOF raise (`InputExhausted`). `pwrandom` reads its length with `int(input(...))`. The model takes the length as an argument, so a non-numeric reply, which raises ValueError, is left out.
- Vault.FileClose: the security branch also overwrites the caller's frame in place (`panda.iloc[1] = ...`). The model returns only the new file contents, not the mutated frame.
- The earlier revision's constructor, `firstTime`, `fileOpen`, `fileClose` and `fileEncrypt` do the same as the later ones. Only its single-attempt `fileDecrypt` is modelled separately (`Vault.FileDecrypt2`).
- `Data_Manager` mutates its data frame in place. The model returns the new table instead.

=== FILE: common.dfy ===
/** Shared outcome types: an optional value, a value-or-error result, and the
    error kinds the password manager can raise. */
module Common {

  datatype Option<+T> = None | Some(value: T)

  datatype Result<+R, +E> = Success(value: R) | Failure(error: E)

  /** Every exception the modelled code can raise, named after its cause. */
  datatype Error =
    | InvalidFileName        // constructor: the name failed the legality check
    | TypeError              // `len(name > 255)` on linux; `int()` over a match array in remove
    | FileDoesNotExist       // fileOpen on a missing instance file
    | FileNotFound(name: string) // `open` of a missing file for reading
    | MasterPasswordError    // digest mismatch and no successful recovery
    | PandasError            // fileClose given something that is not a data frame
    | EmptyDataError         // read_csv of an empty file where nothing catches it
    | IndexError             // positional access past the end of a frame
    | ValueError             // random.randint / random.sample on an impossible range; Fernet(key) rejecting key.key
    | InputExhausted         // the user-input script ran out (EOF at a prompt)
    | InvalidToken           // the cipher refused to decrypt a token
}

=== FILE: legality.dfy ===
/** The platform-indexed file-name check run before a vault file is touched
    (`System.checkLegality`). The platform is a parameter instead of `sys.platform`. */
module Legality {
  import opened Common

  datatype Platform = Win32 | Darwin | Linux | OtherPlatform

  /** Python's `str.upper`, restricted to ASCII: a-z become A-Z, everything else is kept. */
  function UpperChar(c: char): (u: char)
    ensures 'a' <= c <= 'z' ==> u as int == c as int - 32
    ensures !('a' <= c <= 'z') ==> u == c
  {
    if 'a' <= c <= 'z' then (c as int - 32) as char else c
  }

  function Upper(s: string): (u: string)
    ensures |u| == |s|
    ensures forall i :: 0 <= i < |s| ==> u[i] == UpperChar(s[i])
  {
    seq(|s|, i requires 0 <= i < |s| => UpperChar(s[i]))
  }

  /** The ten characters Windows forbids anywhere in a name. */
  const WinIllegalChars: string := "\\/<>:\"'|?*"

  /** The Windows black list exactly as `checkLegality` writes it: the illegal-character
      string itself, the device names, and the empty name. */
  const WinIllegalNames: seq<string> :=
    [WinIllegalChars, "CON", "PRN", "AUX", "NUL",
     "COM1", "COM2", "COM3", "COM4", "COM5", "COM6", "COM7", "COM8", "COM9",
     "LPT1", "LPT2", "LPT3", "LPT4", "LPT5", "LPT6", "LPT7", "LPT8", "LPT9", ""]

  const MacIllegalNames: seq<string> := ["/", ":", "NUL", ""]

  const LinuxIllegalNames: seq<string> := ["/", "NUL", ""]

  const MaxNameLength: nat := 255

  predicate ContainsWinIllegalChar(name: string) {
    exists i :: 0 <= i < |name| && name[i] in WinIllegalChars
  }

  /** `checkLegality`: Success(true) for a legal name, Success(false) for an illegal
      one, Failure(TypeError) where the linux branch evaluates `name > 255`. */
  function CheckLegality(p: Platform, name: string): (r: Result<bool, Error>)
    ensures p != Linux ==> r.Success?
    ensures p == Linux ==> r != Success(true)
    ensures p == OtherPlatform ==> r == Success(true)
    ensures p != OtherPlatform && r == Success(true) ==> name != "" && |name| <= MaxNameLength
  {
    match p
    case Win32 =>
      // The empty name is in the list, so `name[-1]` is only reached for a non-empty name.
      var illegal := ContainsWinIllegalChar(name) || Upper(name) in WinIllegalNames
                     || |name| > MaxNameLength || name[|name| - 1] == '.';
      Success(!illegal)
    case Darwin =>
      Success(!(Upper(name) in MacIllegalNames || |name| > MaxNameLength))
    case Linux =>
      if Upper(name) in LinuxIllegalNames then Success(false) else Failure(TypeError)
    case OtherPlatform =>
      Success(true)
  }

  /** The Windows device names described independently of the list: CON, PRN, AUX,
      NUL, and COM or LPT followed by one digit 1-9. */
  predicate IsDeviceName(u: string) {
    || u == "CON" || u == "PRN" || u == "AUX" || u == "NUL"
    || (|u| == 4 && (u[..3] == "COM" || u[..3] == "LPT") && '1' <= u[3] <= '9')
  }

  /** Windows legality, stated as the four independent conditions: no forbidden
      character, not a device name (case-insensitively) or empty, at most 255
      characters, and no trailing dot. */
  lemma WindowsRule(name: string)
    ensures CheckLegality(Win32, name) == Success(true) <==>
      && (forall i :: 0 <= i < |name| ==> name[i] !in WinIllegalChars)
      && name != ""
      && !IsDeviceName(Upper(name))
      && |name| <= MaxNameLength
      && name[|name| - 1] != '.'
  {
    var u := Upper(name);
    if !ContainsWinIllegalChar(name) {
      assert u != WinIllegalChars by {
        if |name| > 0 {
          assert name[0] !in WinIllegalChars;
        }
      }
      DeviceNames(u);
    }
  }

  lemma DeviceNames(u: string)
    requires u != WinIllegalChars
    ensures u in WinIllegalNames <==> u == "" || IsDeviceName(u)
  {
    if |u| == 4 && (u[..3] == "COM" || u[..3] == "LPT") && '1' <= u[3] <= '9' {
      NumberedDevice(u);
    }
  }

  /** COM1-COM9 and LPT1-LPT9 are all on the list. */
  lemma NumberedDevice(u: string)
    requires |u| == 4 && (u[..3] == "COM" || u[..3] == "LPT") && '1' <= u[3] <= '9'
    ensures u in WinIllegalNames
  {
    assert u == u[..3] + [u[3]];
    if u[..3] == "COM" {
      PortOnList("COM", u[3]);
    } else {
      PortOnList("LPT", u[3]);
    }
  }

  lemma PortOnList(prefix: string, d: char)
    requires prefix == "COM" || prefix == "LPT"
    requires '1' <= d <= '9'
    ensures prefix + [d] in WinIllegalNames
  {
    var names := WinIllegalNames;
    var k := d as int - '1' as int;
    var at := if prefix == "COM" then 5 + k else 14 + k;
    assert names[at] == prefix + [d];
  }

  /** ASCII upper-casing leaves every forbidden character, the dot, and the length
      alone, and is idempotent, so the legality check cannot tell a name from its
      ASCII upper-case form. (Python's `str.upper` can lengthen a name; see README.) */
  lemma CaseInsensitive(p: Platform, name: string)
    ensures CheckLegality(p, Upper(name)) == CheckLegality(p, name)
  {
    var u := Upper(name);
    assert Upper(u) == u;
    assert ContainsWinIllegalChar(u) <==> ContainsWinIllegalChar(name) by {
      forall i | 0 <= i < |name|
        ensures u[i] in WinIllegalChars <==> name[i] in WinIllegalChars
      {
      }
    }
  }

  /** On darwin the check compares whole names: a name that merely contains '/'
      or ':' is accepted. */
  lemma DarwinComparesWholeNames()
    ensures CheckLegality(Darwin, "a/b") == Success(true)
    ensures CheckLegality(Darwin, "a:b") == Success(true)
    ensures CheckLegality(Darwin, "nul") == Success(false)
    ensures CheckLegality(Darwin, "") == Success(false)
  {
    assert Upper("a/b") == "A/B";
    assert Upper("a:b") == "A:B";
    assert Upper("nul") == "NUL";
  }

  /** Darwin legality for every name: only the whole names "/", ":", "NUL" (in any
      case) and "" are refused, and names longer than 255 characters. */
  lemma DarwinRule(name: string)
    ensures CheckLegality(Darwin, name).Success?
    ensures CheckLegality(Darwin, name) == Success(true) <==>
      0 < |name| <= MaxNameLength && name != "/" && name != ":" && Upper(name) != "NUL"
  {
    if |name| == 1 {
      assert Upper(name) == [UpperChar(name[0])];
      assert name == [name[0]];
    }
  }

  /** On linux only the three listed names get an answer; every other name raises. */
  lemma LinuxRaisesForOrdinaryNames(name: string)
    ensures CheckLegality(Linux, name) == Failure(TypeError) <==>
      Upper(name) != "/" && Upper(name) != "NUL" && name != ""
  {
  }

  /** Windows examples: device names in any case, forbidden characters, a trailing
      dot and over-long names are rejected. */
  lemma WindowsRejects()
    ensures CheckLegality(Win32, "CON") == Success(false)
    ensures CheckLegality(Win32, "lpt7") == Success(false)
    ensures CheckLegality(Win32, "a|b") == Success(false)
    ensures CheckLegality(Win32, "vault.") == Success(false)
    ensures CheckLegality(Win32, seq(256, i => 'a')) == Success(false)
  {
    assert Upper("CON") == "CON";
    assert Upper("lpt7") == "LPT7";
    assert "a|b"[1] == '|';
  }

  /** An ordinary csv name is legal on Windows. */
  lemma WindowsAccepts()
    ensures CheckLegality(Win32, "passwords.csv") == Success(true)
  {
    var pw := "passwords.csv";
    PlainCharsLegal(pw);
    assert !ContainsWinIllegalChar(pw);
    assert forall k :: 0 <= k < |WinIllegalNames| ==> |WinIllegalNames[k]| < 13;
    assert Upper(pw) !in WinIllegalNames;
  }

  /** Lower-case letters and dots are never forbidden characters. */
  lemma PlainCharsLegal(name: string)
    requires forall i :: 0 <= i < |name| ==> 'a' <= name[i] <= 'z' || name[i] == '.'
    ensures forall i :: 0 <= i < |name| ==> name[i] !in WinIllegalChars
  {
    forall i | 0 <= i < |name| ensures name[i] !in WinIllegalChars {
      var c := name[i];
      assert forall k :: 0 <= k < |WinIllegalChars| ==> WinIllegalChars[k] != c;
    }
  }
}

=== FILE: machine.dfy ===
/** The state the vault engine works on: the working directory as a map from
    file name to contents, and the user's replies still to come, consumed in
    order by every prompt. */
module Machine {
  import opened Common

  type FileSystem = map<string, string>

  const KeyFile: string := "key.key"
  const MasterFile: string := "mpass.txt"
  const PasswordFile: string := "password.csv"
  const SecurityFile: string := "security.csv"

  /** The four artefacts first-run provisioning creates. */
  const StandardFiles: set<string> := {KeyFile, MasterFile, PasswordFile, SecurityFile}

  datatype World = World(fs: FileSystem, script: seq<string>)

  /** How an operation ends: it returns a value, or it raises; either way the
      world is the one at that moment (files already written stay written). */
  datatype Outcome<+T> = Done(world: World, value: T) | Raised(world: World, error: Error)

  /** `input(prompt)`: the next scripted reply; EOF when the script is used up. */
  function Prompt(w: World): (o: Outcome<string>)
    ensures o.world.fs == w.fs
    ensures o.Raised? <==> w.script == []
    ensures o.Raised? ==> o.world == w && o.error == InputExhausted
    ensures o.Done? ==> [o.value] + o.world.script == w.script
  {
    if |w.script| == 0 then Raised(w, InputExhausted)
    else Done(w.(script := w.script[1..]), w.script[0])
  }

  /** Every file of `before` is still in `after` with the same contents. */
  predicate Preserves(before: FileSystem, after: FileSystem) {
    forall f :: f in before ==> f in after && after[f] == before[f]
  }

  /** `rest` is what is left of `script` after some replies were consumed. */
  predicate IsSuffix(rest: seq<string>, script: seq<string>) {
    |rest| <= |script| && rest == script[|script| - |rest|..]
  }
}

=== FILE: password_gen.dfy ===
/** `Data_Manager.pwrandom`: a password of a requested length made of distinct
    characters drawn without replacement from letters, digits and punctuation.
    The length is an argument; the random sample is a nondeterministic choice. */
module PasswordGen {
  import opened Common

  const Lowercase: string := "abcdefghijklmnopqrstuvwxyz"
  const Uppercase: string := "ABCDEFGHIJKLMNOPQRSTUVWXYZ"
  const Digits: string := "0123456789"
  const Punctuation: string := "!\"#$%&'()*+,-./:;<=>?@[\\]^_`{|}~"

  /** `lowercase + uppercase + numbers + symbols`. */
  const Pool: string := Lowercase + Uppercase + Digits + Punctuation

  const PoolSize: nat := 94

  predicate Distinct<T(==)>(s: seq<T>) {
    forall i, j :: 0 <= i < j < |s| ==> s[i] != s[j]
  }

  /** The characters with codes from..from+n-1, in order. */
  function Span(from: char, n: nat): (s: string)
    requires from as int + n <= 0xD800
    ensures |s| == n && Distinct(s)
    ensures forall i :: 0 <= i < n ==> s[i] as int == from as int + i
  {
    seq(n, i requires 0 <= i < n => (from as int + i) as char)
  }

  lemma DistinctConcat(a: string, b: string)
    requires Distinct(a) && Distinct(b)
    requires forall i, j :: 0 <= i < |a| && 0 <= j < |b| ==> a[i] != b[j]
    ensures Distinct(a + b)
  {
    forall i, j | 0 <= i < j < |a + b| ensures (a + b)[i] != (a + b)[j] {
      if j < |a| {
        assert (a + b)[i] == a[i] && (a + b)[j] == a[j];
      } else if i >= |a| {
        assert (a + b)[i] == b[i - |a|] && (a + b)[j] == b[j - |a|];
      } else {
        assert (a + b)[i] == a[i] && (a + b)[j] == b[j - |a|];
      }
    }
  }

  /** Each of the four character classes is a run of consecutive character codes,
      except punctuation, which is four runs. */
  lemma SegmentsAreSpans()
    ensures Lowercase == Span('a', 26)
    ensures Uppercase == Span('A', 26)
    ensures Digits == Span('0', 10)
    ensures Punctuation == Span('!', 15) + Span(':', 7) + Span('[', 6) + Span('{', 4)
  {
  }

  /** The pool has 94 characters and none twice: it is every printable ASCII
      character except the space. */
  lemma PoolFacts()
    ensures |Pool| == PoolSize
    ensures Distinct(Pool)
    ensures forall c :: c in Pool <==> '!' <= c <= '~'
  {
    SegmentsAreSpans();
    var p1, p2, p3, p4 := Span('!', 15), Span(':', 7), Span('[', 6), Span('{', 4);
    DistinctConcat(p1, p2);
    DistinctConcat(p1 + p2, p3);
    DistinctConcat(p1 + p2 + p3, p4);
    DistinctConcat(Lowercase, Uppercase);
    DistinctConcat(Lowercase + Uppercase, Digits);
    DistinctConcat(Lowercase + Uppercase + Digits, Punctuation);
    PoolCovers();
  }

  lemma PoolCovers()
    ensures forall c :: c in Pool <==> '!' <= c <= '~'
  {
    SegmentsAreSpans();
    var spans := [Span('a', 26), Span('A', 26), Span('0', 10), Span('!', 15), Span(':', 7), Span('[', 6), Span('{', 4)];
    assert Pool == spans[0] + spans[1] + spans[2] + (spans[3] + spans[4] + spans[5] + spans[6]);
    SpanMembers('a', 26);
    SpanMembers('A', 26);
    SpanMembers('0', 10);
    SpanMembers('!', 15);
    SpanMembers(':', 7);
    SpanMembers('[', 6);
    SpanMembers('{', 4);
  }

  lemma SpanMembers(from: char, n: nat)
    requires from as int + n <= 0xD800
    ensures forall c :: c in Span(from, n) <==> from as int <= c as int < from as int + n
  {
    var s := Span(from, n);
    forall c | from as int <= c as int < from as int + n ensures c in s {
      assert s[c as int - from as int] == c;
    }
  }

  /** A draw of `random.sample`: `k` distinct positions of the pool. */
  predicate IsSample(picks: seq<nat>, k: nat) {
    && |picks| == k
    && (forall i :: 0 <= i < k ==> picks[i] < PoolSize)
    && Distinct(picks)
  }

  /** `pwrandom` with the length as an argument: ValueError for a negative length
      or one larger than the pool; otherwise `length` distinct pool characters. */
  method PwRandom(length: int) returns (r: Result<string, Error>)
    ensures r.Failure? <==> length < 0 || length > PoolSize
    ensures r.Failure? ==> r.error == ValueError
    ensures r.Success? ==> |r.value| == length && Distinct(r.value)
    ensures r.Success? ==> forall i :: 0 <= i < |r.value| ==> r.value[i] in Pool
  {
    if length < 0 || length > PoolSize {
      return Failure(ValueError);
    }
    PoolFacts();
    var k: nat := length;
    var identity := seq(k, i => i);
    assert IsSample(identity, k);
    var picks: seq<nat> :| IsSample(picks, k);
    assert IsSample(picks, k);
    var password := seq(k, i requires 0 <= i < k => Pool[picks[i]]);
    assert Distinct(password) by {
      forall i, j | 0 <= i < j < k ensures password[i] != password[j] {
        assert picks[i] != picks[j];
      }
    }
    r := Success(password);
  }
}

=== FILE: primitives.dfy ===
/** The foreign calls the vault engine makes, kept uninterpreted: each is a
    function value the caller supplies, and nothing is assumed about it unless a
    lemma says so in its `requires`. */
module Primitives {
  import opened Common

  /** A table as pandas holds it positionally (`iloc`): rows of cells. */
  type Rows = seq<seq<string>>

  datatype Primitives = Primitives(
    /** `str(strHash(s))`: the text form of the SHA-256 digest of `s`. */
    digest: string -> string,
    /** `Fernet(key)` accepts the key text; it raises ValueError otherwise. */
    validKey: string -> bool,
    /** `Fernet(key).encrypt(data)`. */
    encrypt: (string, string) -> string,
    /** `Fernet(key).decrypt(token)`; None when the cipher raises InvalidToken. */
    decrypt: (string, string) -> Option<string>,
    /** `DataFrame.to_csv(header=False, index=False)`. */
    writeCsv: Rows -> string,
    /** `pd.read_csv(header=None, dtype=str)`; None when it raises EmptyDataError. */
    readCsv: string -> Option<Rows>
  )

  /** The cipher property Fernet promises for a key it accepts: a token is never
      empty, and decrypting with the key that encrypted gives back the plaintext. */
  ghost predicate CipherRoundTrips(lib: Primitives) {
    forall key, data :: lib.validKey(key) ==>
      |lib.encrypt(key, data)| > 0 && lib.decrypt(key, lib.encrypt(key, data)) == Some(data)
  }

  /** The csv property pandas is expected to have for one particular table. */
  predicate CsvRoundTrips(lib: Primitives, t: Rows) {
    lib.readCsv(lib.writeCsv(t)) == Some(t)
  }
}

=== FILE: provisioning.dfy ===
/** First-run provisioning (`System.firstTime`): each of the four artefacts is
    created only when it is missing, in the order key, master password, vault
    file, security questions. */
module Provisioning {
  import opened Common
  import opened Primitives
  import opened Machine

  /** The reply that ends security-question collection. */
  const Stop: string := "stop"

  datatype QA = QA(question: string, answer: string)

  /** The replies a user types to enter `pairs`: question, answer, question, ... */
  function PairsScript(pairs: seq<QA>): (s: seq<string>)
    ensures |s| == 2 * |pairs|
  {
    if |pairs| == 0 then [] else [pairs[0].question, pairs[0].answer] + PairsScript(pairs[1..])
  }

  predicate NoStop(pairs: seq<QA>) {
    forall i :: 0 <= i < |pairs| ==> pairs[i].question != Stop
  }

  /** The collection loop: reads a question; "stop" ends it; otherwise reads the
      answer and goes on. None when the script runs out first. */
  function Collect(script: seq<string>): (r: Option<(seq<QA>, seq<string>)>)
    ensures r.Some? ==> NoStop(r.value.0) && PairsScript(r.value.0) + [Stop] + r.value.1 == script
    decreases |script|
  {
    if |script| == 0 then None
    else if script[0] == Stop then Some(([], script[1..]))
    else if |script| == 1 then None
    else
      match Collect(script[2..])
      case None => None
      case Some((pairs, rest)) => Some(([QA(script[0], script[1])] + pairs, rest))
  }

  /** Collection reads back exactly the pairs a script was made from: the
      partner of `PairsScript`. */
  lemma {:induction false} CollectInvertsScript(pairs: seq<QA>, rest: seq<string>)
    requires NoStop(pairs)
    ensures Collect(PairsScript(pairs) + [Stop] + rest) == Some((pairs, rest))
    decreases |pairs|
  {
    var script := PairsScript(pairs) + [Stop] + rest;
    if |pairs| == 0 {
      assert script == [Stop] + rest;
    } else {
      var tail := pairs[1..];
      assert NoStop(tail) by {
        forall i | 0 <= i < |tail| ensures tail[i].question != Stop {
          assert tail[i] == pairs[i + 1];
        }
      }
      CollectInvertsScript(tail, rest);
      assert script[2..] == PairsScript(tail) + [Stop] + rest;
      assert script[0] == pairs[0].question != Stop;
      assert [QA(script[0], script[1])] + tail == pairs;
    }
  }

  /** The two rows written to security.csv: plaintext questions, answer digests. */
  function SecurityRows(lib: Primitives, pairs: seq<QA>): (rows: Rows)
    ensures |rows| == 2 && |rows[0]| == |rows[1]| == |pairs|
    ensures forall i :: 0 <= i < |pairs| ==> rows[0][i] == pairs[i].question
    ensures forall i :: 0 <= i < |pairs| ==> rows[1][i] == lib.digest(pairs[i].answer)
  {
    [seq(|pairs|, i requires 0 <= i < |pairs| => pairs[i].question),
     seq(|pairs|, i requires 0 <= i < |pairs| => lib.digest(pairs[i].answer))]
  }

  /** The key is created from the freshly generated key material when missing. */
  function ProvisionKey(freshKey: string, w: World): (w': World)
    ensures w'.script == w.script
    ensures KeyFile in w'.fs && Preserves(w.fs, w'.fs)
    ensures w'.fs.Keys == w.fs.Keys + {KeyFile}
    ensures KeyFile !in w.fs ==> w'.fs[KeyFile] == freshKey
  {
    if KeyFile in w.fs then w else w.(fs := w.fs[KeyFile := freshKey])
  }

  /** When mpass.txt is missing, one reply is read and its digest text stored. */
  function ProvisionMaster(lib: Primitives, w: World): (o: Outcome<()>)
    ensures Preserves(w.fs, o.world.fs)
    ensures MasterFile in w.fs ==> o == Done(w, ())
    ensures o.Raised? ==> o.world == w && o.error == InputExhausted
    ensures MasterFile !in w.fs && o.Done? ==>
      && |w.script| > 0 && [w.script[0]] + o.world.script == w.script
      && o.world.fs == w.fs[MasterFile := lib.digest(w.script[0])]
  {
    if MasterFile in w.fs then Done(w, ())
    else
      match Prompt(w)
      case Raised(w1, e) => Raised(w1, e)
      case Done(w1, mpass) => Done(w1.(fs := w1.fs[MasterFile := lib.digest(mpass)]), ())
  }

  /** An empty password.csv is created when missing. */
  function ProvisionVault(w: World): (w': World)
    ensures w'.script == w.script
    ensures PasswordFile in w'.fs && Preserves(w.fs, w'.fs)
    ensures w'.fs.Keys == w.fs.Keys + {PasswordFile}
    ensures PasswordFile !in w.fs ==> w'.fs[PasswordFile] == ""
  {
    if PasswordFile in w.fs then w else w.(fs := w.fs[PasswordFile := ""])
  }

  /** When security.csv is missing, questions and answers are collected until
      "stop" and written as two rows. If the replies run out, all of them have
      been consumed and nothing is written. */
  function ProvisionSecurity(lib: Primitives, w: World): (o: Outcome<()>)
    ensures Preserves(w.fs, o.world.fs)
    ensures SecurityFile in w.fs ==> o == Done(w, ())
    ensures o.Raised? ==> o.world == w.(script := []) && o.error == InputExhausted
    ensures o.Done? ==> SecurityFile in o.world.fs && IsSuffix(o.world.script, w.script)
    ensures o.world.fs.Keys <= w.fs.Keys + {SecurityFile}
    ensures forall f :: f != SecurityFile ==> (f in o.world.fs <==> f in w.fs)
  {
    if SecurityFile in w.fs then Done(w, ())
    else
      match Collect(w.script)
      case None => Raised(w.(script := []), InputExhausted)
      case Some((pairs, rest)) =>
        assert w.script == (PairsScript(pairs) + [Stop]) + rest;
        Done(World(w.fs[SecurityFile := lib.writeCsv(SecurityRows(lib, pairs))], rest), ())
  }

  /** The last three steps of `firstTime`, after the key exists. */
  function ProvisionRest(lib: Primitives, w: World): (o: Outcome<()>)
    ensures Preserves(w.fs, o.world.fs)
    ensures o.world.fs.Keys <= w.fs.Keys + {MasterFile, PasswordFile, SecurityFile}
    ensures o.Done? ==> {MasterFile, PasswordFile, SecurityFile} <= o.world.fs.Keys
    ensures o.Raised? ==> o.error == InputExhausted
    ensures IsSuffix(o.world.script, w.script)
    ensures MasterFile in w.fs && PasswordFile in w.fs && SecurityFile in w.fs ==> o == Done(w, ())
    ensures MasterFile in w.fs && SecurityFile in w.fs ==> o.Done? && o.world.script == w.script
    ensures MasterFile !in w.fs && o.Done? ==>
      |w.script| > 0 && o.world.fs[MasterFile] == lib.digest(w.script[0])
    ensures PasswordFile !in w.fs && o.Done? ==> o.world.fs[PasswordFile] == ""
  {
    var m := ProvisionMaster(lib, w);
    if m.Raised? then m
    else
      var w2 := m.world;
      assert IsSuffix(w2.script, w.script);
      var w3 := ProvisionVault(w2);
      assert Preserves(w.fs, w3.fs);
      ProvisionSecurity(lib, w3)
  }

  /** `firstTime`: creates whichever of the four artefacts are missing and leaves
      every existing file as it was. */
  function FirstTime(lib: Primitives, freshKey: string, w: World): (o: Outcome<()>)
    ensures Preserves(w.fs, o.world.fs)
    ensures o.world.fs.Keys <= w.fs.Keys + StandardFiles
    ensures o.Done? ==> StandardFiles <= o.world.fs.Keys
    ensures o.Raised? ==> o.error == InputExhausted
    ensures IsSuffix(o.world.script, w.script)
    ensures StandardFiles <= w.fs.Keys ==> o == Done(w, ())
    ensures MasterFile in w.fs && SecurityFile in w.fs ==> o.Done? && o.world.script == w.script
    ensures KeyFile !in w.fs ==> KeyFile in o.world.fs && o.world.fs[KeyFile] == freshKey
    ensures MasterFile !in w.fs && o.Done? ==>
      |w.script| > 0 && o.world.fs[MasterFile] == lib.digest(w.script[0])
    ensures PasswordFile !in w.fs && o.Done? ==> o.world.fs[PasswordFile] == ""
  {
    var w1 := ProvisionKey(freshKey, w);
    assert MasterFile in w1.fs <==> MasterFile in w.fs;
    assert PasswordFile in w1.fs <==> PasswordFile in w.fs;
    assert SecurityFile in w1.fs <==> SecurityFile in w.fs;
    ProvisionRest(lib, w1)
  }
}

=== FILE: records.dfy ===
/** The record table (`Data_Manager`): a data frame of labelled rows with the
    columns Username and Password, and the add / remove / retrieve operations
    over it. Pandas row index labels are kept explicit because `add` and `remove`
    work through them. */
module Records {
  import opened Common

  datatype Row = Row(index: nat, username: string, password: string)

  type Table = seq<Row>

  predicate HasLabel(t: Table, index: nat) {
    exists i :: 0 <= i < |t| && t[i].index == index
  }

  /** No two rows share an index label. */
  predicate UniqueLabels(t: Table) {
    forall i, j :: 0 <= i < j < |t| ==> t[i].index != t[j].index
  }

  /** The index labels are 0, 1, ..., n-1 in order, as after read_csv or a run of adds. */
  predicate Canonical(t: Table) {
    forall i :: 0 <= i < |t| ==> t[i].index == i
  }

  /** `.loc[index, :] = [username, password]`: rows carrying the index are
      overwritten in place; when there is none, a row is appended. Either way the
      result holds exactly the new row and the old rows with other labels, and
      grows only when the label was free. */
  function SetRow(t: Table, index: nat, username: string, password: string): (r: Table)
    ensures |r| == |t| + (if HasLabel(t, index) then 0 else 1)
    ensures forall x :: x in r <==> (x in t && x.index != index) || x == Row(index, username, password)
    ensures HasLabel(t, index) ==> |r| == |t|
    ensures HasLabel(t, index) ==> forall i :: 0 <= i < |t| ==>
      r[i] == (if t[i].index == index then Row(index, username, password) else t[i])
    ensures !HasLabel(t, index) ==> r == t + [Row(index, username, password)]
  {
    if HasLabel(t, index) then
      var r := seq(|t|, i requires 0 <= i < |t| => if t[i].index == index then Row(index, username, password) else t[i]);
      OverwriteMembers(t, index, Row(index, username, password), r);
      r
    else t + [Row(index, username, password)]
  }

  /** Overwriting every row that carries a present label leaves exactly the new
      row and the rows with other labels. */
  lemma OverwriteMembers(t: Table, index: nat, row: Row, r: Table)
    requires HasLabel(t, index) && row.index == index && |r| == |t|
    requires forall i :: 0 <= i < |t| ==> r[i] == (if t[i].index == index then row else t[i])
    ensures forall x :: x in r <==> (x in t && x.index != index) || x == row
  {
    var k :| 0 <= k < |t| && t[k].index == index;
    assert r[k] == row;
    forall x | x in t && x.index != index ensures x in r {
      var j :| 0 <= j < |t| && t[j] == x;
      assert r[j] == x;
    }
  }

  /** `add`: writes the row at index `len(index)`. */
  function Add(t: Table, username: string, password: string): (r: Table)
    ensures Canonical(t) ==> r == t + [Row(|t|, username, password)] && Canonical(r)
    ensures UniqueLabels(t) ==> UniqueLabels(r)
    ensures |r| == |t| + 1 <==> !HasLabel(t, |t|)
  {
    SetRow(t, |t|, username, password)
  }

  /** The number of rows whose Username is `username`. */
  function Count(t: Table, username: string): nat {
    if |t| == 0 then 0
    else (if t[0].username == username then 1 else 0) + Count(t[1..], username)
  }

  /** `retrieve`: the rows whose Username equals `username`, in table order,
      with their index labels. */
  function Retrieve(t: Table, username: string): (r: Table)
    ensures |r| == Count(t, username)
    ensures forall x :: x in r <==> x in t && x.username == username
  {
    if |t| == 0 then []
    else if t[0].username == username then [t[0]] + Retrieve(t[1..], username)
    else Retrieve(t[1..], username)
  }

  /** `retrieve` keeps table order: filtering a concatenation is concatenating
      the filtered parts. With `RetrieveOne`, this determines the result on every
      table. */
  lemma {:induction false} RetrieveConcat(a: Table, b: Table, username: string)
    ensures Retrieve(a + b, username) == Retrieve(a, username) + Retrieve(b, username)
    decreases |a|
  {
    if |a| > 0 {
      assert (a + b)[1..] == a[1..] + b;
      RetrieveConcat(a[1..], b, username);
    } else {
      assert a + b == b;
    }
  }

  /** On a single row, `retrieve` keeps the row exactly when its Username matches. */
  lemma RetrieveOne(x: Row, username: string)
    ensures Retrieve([x], username) == if x.username == username then [x] else []
  {
    assert [x][1..] == [];
  }

  /** `drop(labels=[index])`: every row carrying the index goes, the rest keep
      their order. */
  function DropLabel(t: Table, index: nat): (r: Table)
    ensures forall x :: x in r <==> x in t && x.index != index
    ensures |r| <= |t|
    ensures HasLabel(t, index) ==> |r| < |t|
  {
    if |t| == 0 then []
    else if t[0].index == index then DropLabel(t[1..], index)
    else
      var rest := DropLabel(t[1..], index);
      assert HasLabel(t, index) ==> HasLabel(t[1..], index) by {
        if HasLabel(t, index) {
          var i :| 0 <= i < |t| && t[i].index == index;
          assert t[1..][i - 1].index == index;
        }
      }
      [t[0]] + rest
  }

  /** `remove`: `int()` over the matching index labels only succeeds for exactly one
      match; that row's index is then dropped. */
  function Remove(t: Table, username: string): (r: Result<Table, Error>)
    ensures r.Success? <==> Count(t, username) == 1
    ensures r.Failure? ==> r.error == TypeError
    ensures r.Success? ==> |r.value| < |t|
  {
    var matches := Retrieve(t, username);
    if |matches| != 1 then Failure(TypeError)
    else
      assert matches[0] in t;
      Success(DropLabel(t, matches[0].index))
  }

  /** With one match at index i, retrieval yields exactly that row. */
  lemma {:induction false} RetrieveSingle(t: Table, username: string, i: nat)
    requires i < |t| && t[i].username == username && Count(t, username) == 1
    ensures Retrieve(t, username) == [t[i]]
    decreases |t|
  {
    if i == 0 {
      NoneLeft(t[1..], username);
    } else {
      assert t[1..][i - 1] == t[i];
      if t[0].username == username {
        CountPositive(t[1..], username, i - 1);
        assert false;
      }
      RetrieveSingle(t[1..], username, i - 1);
    }
  }

  lemma {:induction false} CountPositive(t: Table, username: string, i: nat)
    requires i < |t| && t[i].username == username
    ensures Count(t, username) > 0
    decreases |t|
  {
    if i > 0 {
      assert t[1..][i - 1] == t[i];
      CountPositive(t[1..], username, i - 1);
    }
  }

  lemma {:induction false} NoneLeft(t: Table, username: string)
    requires Count(t, username) == 0
    ensures Retrieve(t, username) == []
    decreases |t|
  {
    if |t| > 0 {
      NoneLeft(t[1..], username);
    }
  }

  /** With unique index labels, dropping the index of row i removes row i and nothing else. */
  lemma {:induction false} DropOwnLabel(t: Table, i: nat)
    requires UniqueLabels(t) && i < |t|
    ensures DropLabel(t, t[i].index) == t[..i] + t[i + 1..]
    decreases |t|
  {
    var l := t[i].index;
    UniqueTail(t);
    if i == 0 {
      DropAbsent(t[1..], l);
      assert t[..0] + t[1..] == t[1..];
    } else {
      assert t[1..][i - 1] == t[i];
      DropOwnLabel(t[1..], i - 1);
      SpliceCons(t, i);
    }
  }

  /** Putting the first row back in front of the tail with its row i-1 removed
      gives the table with its row i removed. */
  lemma SpliceCons(t: Table, i: nat)
    requires 0 < i < |t|
    ensures [t[0]] + (t[1..][..i - 1] + t[1..][i..]) == t[..i] + t[i + 1..]
  {
    assert t[1..][..i - 1] == t[1..i] && t[1..][i..] == t[i + 1..];
    assert [t[0]] + t[1..i] == t[..i];
  }

  /** Dropping the first row keeps labels unique, and no later row carries the first label. */
  lemma UniqueTail(t: Table)
    requires UniqueLabels(t) && |t| > 0
    ensures UniqueLabels(t[1..])
    ensures forall k :: 0 <= k < |t[1..]| ==> t[1..][k].index != t[0].index
  {
    var tail := t[1..];
    forall a, b | 0 <= a < b < |tail| ensures tail[a].index != tail[b].index {
      assert tail[a] == t[a + 1] && tail[b] == t[b + 1];
    }
    forall k | 0 <= k < |tail| ensures tail[k].index != t[0].index {
      assert tail[k] == t[k + 1];
    }
  }

  lemma {:induction false} DropAbsent(t: Table, index: nat)
    requires forall k :: 0 <= k < |t| ==> t[k].index != index
    ensures DropLabel(t, index) == t
    decreases |t|
  {
    if |t| > 0 {
      DropAbsent(t[1..], index);
    }
  }

  /** A successful `remove` on a table with unique index labels drops exactly the
      matching row; the other rows keep their index labels and their order. */
  lemma RemoveDropsMatch(t: Table, username: string, i: nat)
    requires UniqueLabels(t) && i < |t| && t[i].username == username
    requires Count(t, username) == 1
    ensures Remove(t, username) == Success(t[..i] + t[i + 1..])
  {
    RetrieveSingle(t, username, i);
    DropOwnLabel(t, i);
  }

  /** After a successful `remove` on a table with unique index labels, retrieving the
      same user finds nothing, and index labels stay unique. */
  lemma RemoveThenRetrieve(t: Table, username: string)
    requires UniqueLabels(t) && Remove(t, username).Success?
    ensures Retrieve(Remove(t, username).value, username) == []
    ensures UniqueLabels(Remove(t, username).value)
  {
    var i := MatchIndex(t, username);
    RemoveDropsMatch(t, username, i);
    UniqueAfterDelete(t, i);
    OnlyMatchDeleted(t, username, i);
  }

  /** The position of the single matching row. */
  lemma MatchIndex(t: Table, username: string) returns (i: nat)
    requires Count(t, username) == 1
    ensures i < |t| && t[i].username == username
  {
    var m := Retrieve(t, username);
    assert m[0] in t;
    i :| 0 <= i < |t| && t[i] == m[0];
  }

  lemma OnlyMatchDeleted(t: Table, username: string, i: nat)
    requires UniqueLabels(t) && i < |t| && t[i].username == username && Count(t, username) == 1
    ensures Retrieve(t[..i] + t[i + 1..], username) == []
  {
    var r := t[..i] + t[i + 1..];
    RetrieveSingle(t, username, i);
    forall k | 0 <= k < |r| ensures r[k].username != username {
      var j := if k < i then k else k + 1;
      assert r[k] == t[j] && t[j].index != t[i].index;
      assert r[k] in t;
    }
    NoMatchNoRows(r, username);
  }

  lemma NoMatchNoRows(t: Table, username: string)
    requires forall k :: 0 <= k < |t| ==> t[k].username != username
    ensures Retrieve(t, username) == []
  {
  }

  lemma UniqueAfterDelete(t: Table, i: nat)
    requires UniqueLabels(t) && i < |t|
    ensures UniqueLabels(t[..i] + t[i + 1..])
  {
    var r := t[..i] + t[i + 1..];
    forall a, b | 0 <= a < b < |r| ensures r[a].index != r[b].index {
      var a' := if a < i then a else a + 1;
      var b' := if b < i then b else b + 1;
      assert r[a] == t[a'] && r[b] == t[b'] && a' < b';
    }
  }

  /** Example: add alice, retrieve her one row, remove her, and
      retrieval finds nothing. */
  lemma AliceLifecycle()
    ensures Add([], "alice", "p1") == [Row(0, "alice", "p1")]
    ensures Retrieve(Add([], "alice", "p1"), "alice") == [Row(0, "alice", "p1")]
    ensures Remove(Add([], "alice", "p1"), "alice") == Success([])
    ensures Retrieve(Remove(Add([], "alice", "p1"), "alice").value, "alice") == []
  {
    var t := Add([], "alice", "p1");
    assert t == [Row(0, "alice", "p1")];
    RetrieveOne(t[0], "alice");
    assert t[1..] == [] && Count(t, "alice") == 1;
    RemoveDropsMatch(t, "alice", 0);
    assert t[..0] + t[1..] == [];
  }

  /** Two records for one user make `remove` raise instead of choosing one. */
  lemma DuplicateRemoveRaises(x: string, y: string)
    ensures Remove(Add(Add([], "bob", x), "bob", y), "bob") == Failure(TypeError)
  {
    var t := Add(Add([], "bob", x), "bob", y);
    assert t == [Row(0, "bob", x), Row(1, "bob", y)];
    assert t[1..] == [Row(1, "bob", y)] && t[1..][1..] == [];
    assert Count(t[1..], "bob") == 1;
  }

  /** After a remove the next `add` can hit a index still in use: removing the
      middle of three rows and adding overwrites the last row instead of growing
      the table. */
  lemma AddAfterRemoveOverwrites(a: string, b: string, c: string, d: string)
    requires b != a && b != c
    ensures var t := [Row(0, a, "pa"), Row(1, b, "pb"), Row(2, c, "pc")];
      Remove(t, b).Success? && Add(Remove(t, b).value, d, "pd") == [Row(0, a, "pa"), Row(2, d, "pd")]
  {
    var t := [Row(0, a, "pa"), Row(1, b, "pb"), Row(2, c, "pc")];
    assert t[1..] == [Row(1, b, "pb"), Row(2, c, "pc")] && t[1..][1..] == [Row(2, c, "pc")];
    assert t[1..][1..][1..] == [];
    assert Count(t[1..][1..], b) == 0;
    assert Count(t[1..], b) == 1;
    RemoveDropsMatch(t, b, 1);
    var r := Remove(t, b).value;
    assert r == [Row(0, a, "pa"), Row(2, c, "pc")];
    assert r[1].index == |r|;
  }
}

=== FILE: vault.dfy ===
/** The vault engine (`System`): construction, authentication with the
    security-question recovery path, decryption and encryption of the vault
    file, open, close and factory reset. The later revision (OS_interface4) is
    the main machine; the earlier single-attempt `fileDecrypt` (OS_interface2)
    is kept as an alternative transition selected by `Revision`. */
module Vault {
  import opened Common
  import opened Primitives
  import opened Machine
  import opened Provisioning
  import Legality

  /** The reply that asks for recovery after a wrong master password. */
  const Help: string := "HELP"

  datatype Revision = V2 | V4

  /** A `System` instance: its file name and whether it is the security file. */
  datatype System = System(name: string, securityQ: bool)

  /** Which columns a frame carries: read_csv with `header=None` numbers them;
      the empty frame fileOpen builds names them. */
  datatype Columns = Positional | Named(names: seq<string>)

  datatype Frame = Frame(columns: Columns, rows: Rows)

  /** What a caller may pass to fileClose: a data frame or anything else. */
  datatype Value = DataFrame(frame: Frame) | NotAFrame

  const EmptyFrame: Frame := Frame(Named(["Username", "Password"]), [])

  /** `__init__`: a name that fails the legality check (or makes it raise) aborts
      before any file is touched; otherwise provisioning runs when mpass.txt,
      key.key or the instance file is missing. */
  function Init(platform: Legality.Platform, lib: Primitives, freshKey: string,
                name: string, securityQ: bool, w: World): (o: Outcome<System>)
    ensures Legality.CheckLegality(platform, name) == Success(false) ==> o == Raised(w, InvalidFileName)
    ensures Legality.CheckLegality(platform, name) == Failure(TypeError) ==> o == Raised(w, TypeError)
    ensures o.Done? ==> o.value == System(name, securityQ)
    ensures Preserves(w.fs, o.world.fs)
    ensures MasterFile in w.fs && KeyFile in w.fs && name in w.fs ==> o.world == w
    ensures o.Done? ==> MasterFile in o.world.fs && KeyFile in o.world.fs
    ensures o.Done? ==> (name in o.world.fs <==> name in w.fs || name in StandardFiles)
    ensures !(MasterFile in w.fs && KeyFile in w.fs && name in w.fs) && o.Done? ==>
      StandardFiles <= o.world.fs.Keys
    ensures Legality.CheckLegality(platform, name) == Success(true) && o.Raised? ==> o.error == InputExhausted
    ensures Legality.CheckLegality(platform, name) == Success(true)
            && MasterFile in w.fs && KeyFile in w.fs && name in w.fs ==>
      o == Done(w, System(name, securityQ))
    ensures Legality.CheckLegality(platform, name) == Success(true)
            && !(MasterFile in w.fs && KeyFile in w.fs && name in w.fs) ==>
      o.world == FirstTime(lib, freshKey, w).world && (o.Done? <==> FirstTime(lib, freshKey, w).Done?)
  {
    match Legality.CheckLegality(platform, name)
    case Failure(e) => Raised(w, e)
    case Success(legal) =>
      if !legal then Raised(w, InvalidFileName)
      else if MasterFile in w.fs && KeyFile in w.fs && name in w.fs then Done(w, System(name, securityQ))
      else
        match FirstTime(lib, freshKey, w)
        case Raised(w1, e) => Raised(w1, e)
        case Done(w1, _) => Done(w1, System(name, securityQ))
  }

  /** `random.randint(0, width - 1)` with the draw as a parameter: always a
      column of the table, and every column can be drawn. */
  function PickColumn(draw: nat, width: nat): (ind: nat)
    requires width > 0
    ensures ind < width
    ensures draw < width ==> ind == draw
  {
    draw % width
  }

  /** The number of columns of a table read from csv (the length of its first row). */
  function Width(t: Rows): nat {
    if |t| == 0 then 0 else |t[0]|
  }

  /** `SecQ`: asks the question in a randomly chosen column and answers whether
      the digest of the reply equals the stored digest in that column. */
  function SecQ(lib: Primitives, draw: nat, w: World): (o: Outcome<bool>)
    ensures o.world.fs == w.fs
    ensures SecurityFile !in w.fs ==> o == Raised(w, FileNotFound(SecurityFile))
    ensures o.Done? ==>
      && SecurityFile in w.fs && lib.readCsv(w.fs[SecurityFile]).Some?
      && var t := lib.readCsv(w.fs[SecurityFile]).value;
      && |t| >= 2 && Width(t) > 0
      && var ind := PickColumn(draw, Width(t));
      && ind < |t[1]| && |w.script| > 0
      && o.world.script == w.script[1..]
      && (o.value <==> lib.digest(w.script[0]) == t[1][ind])
  {
    if SecurityFile !in w.fs then Raised(w, FileNotFound(SecurityFile))
    else
      match lib.readCsv(w.fs[SecurityFile])
      case None => Raised(w, EmptyDataError)
      case Some(t) =>
        if Width(t) == 0 then Raised(w, ValueError)
        else
          var ind := PickColumn(draw, Width(t));
          match Prompt(w)
          case Raised(w1, e) => Raised(w1, e)
          case Done(w1, answer) =>
            if |t| < 2 || ind >= |t[1]| then Raised(w1, IndexError)
            else Done(w1, lib.digest(answer) == t[1][ind])
  }

  /** The authentication part of the later `fileDecrypt`: mpass.txt is read,
      one password is asked for; on a mismatch one more reply is read, and only
      "HELP" followed by a correct security answer gets through. The loop body
      never repeats: every branch breaks or raises. Nothing is written. */
  function Authenticate(lib: Primitives, draw: nat, w: World): (o: Outcome<()>)
    ensures o.world.fs == w.fs
    ensures MasterFile !in w.fs ==> o == Raised(w, FileNotFound(MasterFile))
    ensures MasterFile in w.fs && |w.script| > 0 && lib.digest(w.script[0]) == w.fs[MasterFile] ==>
      o == Done(w.(script := w.script[1..]), ())
    ensures MasterFile in w.fs && |w.script| >= 2 && lib.digest(w.script[0]) != w.fs[MasterFile]
            && w.script[1] != Help ==>
      o == Raised(w.(script := w.script[2..]), MasterPasswordError)
    ensures MasterFile in w.fs && |w.script| >= 2 && lib.digest(w.script[0]) != w.fs[MasterFile]
            && w.script[1] == Help ==>
      var q := SecQ(lib, draw, w.(script := w.script[2..]));
      && (o.Done? <==> q.Done? && q.value)
      && (q.Done? && !q.value ==> o == Raised(q.world, MasterPasswordError))
      && (q.Raised? ==> o == Raised(q.world, q.error))
    ensures MasterFile in w.fs && |w.script| == 0 ==> o == Raised(w, InputExhausted)
    ensures o.Done? ==>
      && MasterFile in w.fs && |w.script| > 0
      && (lib.digest(w.script[0]) == w.fs[MasterFile] || (|w.script| >= 3 && w.script[1] == Help))
  {
    if MasterFile !in w.fs then Raised(w, FileNotFound(MasterFile))
    else
      var mpass := w.fs[MasterFile];
      match Prompt(w)
      case Raised(w1, e) => Raised(w1, e)
      case Done(w1, attempt) =>
        if mpass == lib.digest(attempt) then Done(w1, ())
        else
          match Prompt(w1)
          case Raised(w2, e) => Raised(w2, e)
          case Done(w2, check) =>
            if check != Help then Raised(w2, MasterPasswordError)
            else
              match SecQ(lib, draw, w2)
              case Raised(w3, e) => Raised(w3, e)
              case Done(w3, ok) => if ok then Done(w3, ()) else Raised(w3, MasterPasswordError)
  }

  /** What an authorised `fileDecrypt` turns the file's contents into: an empty
      file stays empty without the cipher being asked; anything else goes
      through the cipher, which may refuse it. */
  function Plaintext(lib: Primitives, key: string, contents: string): (r: Option<string>)
    ensures contents == "" ==> r == Some("")
    ensures contents != "" ==> r == lib.decrypt(key, contents)
  {
    if contents == "" then Some(contents) else lib.decrypt(key, contents)
  }

  /** The key exists and `Fernet` accepts it, the instance file exists, and its
      contents have a plaintext under that key. */
  predicate Decryptable(lib: Primitives, name: string, fs: FileSystem) {
    && KeyFile in fs && lib.validKey(fs[KeyFile]) && name in fs
    && Plaintext(lib, fs[KeyFile], fs[name]).Some?
  }

  /** `after` is `before` with the instance file replaced by its plaintext. */
  predicate DecryptedIn(lib: Primitives, name: string, before: FileSystem, after: FileSystem) {
    && Decryptable(lib, name, before)
    && after == before[name := Plaintext(lib, before[KeyFile], before[name]).value]
  }

  /** The file part of `fileDecrypt` (after authentication): the key is read and
      handed to `Fernet`, then the instance file is replaced by its plaintext; or
      the call raises and nothing changes. */
  function DecryptFile(lib: Primitives, name: string, w: World): (o: Outcome<()>)
    ensures o.world.script == w.script
    ensures o.Raised? ==> o.world == w
    ensures o.Done? <==> Decryptable(lib, name, w.fs)
    ensures o.Done? ==> DecryptedIn(lib, name, w.fs, o.world.fs)
    ensures KeyFile in w.fs && !lib.validKey(w.fs[KeyFile]) ==> o == Raised(w, ValueError)
    ensures KeyFile !in w.fs ==> o == Raised(w, FileNotFound(KeyFile))
    ensures KeyFile in w.fs && lib.validKey(w.fs[KeyFile]) && name !in w.fs ==> o == Raised(w, FileNotFound(name))
    ensures (&& KeyFile in w.fs && lib.validKey(w.fs[KeyFile]) && name in w.fs
             && Plaintext(lib, w.fs[KeyFile], w.fs[name]).None?) ==> o == Raised(w, InvalidToken)
    ensures KeyFile in w.fs && lib.validKey(w.fs[KeyFile]) && name in w.fs && w.fs[name] == "" ==> o == Done(w, ())
  {
    if KeyFile !in w.fs then Raised(w, FileNotFound(KeyFile))
    else if !lib.validKey(w.fs[KeyFile]) then Raised(w, ValueError)
    else if name !in w.fs then Raised(w, FileNotFound(name))
    else
      match Plaintext(lib, w.fs[KeyFile], w.fs[name])
      case None => Raised(w, InvalidToken)
      case Some(plain) => Done(w.(fs := w.fs[name := plain]), ())
  }

  /** The later `fileDecrypt`: authentication (with recovery), then decryption.
      It succeeds exactly when authentication does and the file is decryptable;
      whenever it raises, no file has been written. */
  function FileDecrypt4(lib: Primitives, draw: nat, name: string, w: World): (o: Outcome<()>)
    ensures o.Raised? ==> o.world.fs == w.fs
    ensures Authenticate(lib, draw, w).Raised? ==> o == Authenticate(lib, draw, w)
    ensures o.Done? <==> Authenticate(lib, draw, w).Done? && Decryptable(lib, name, w.fs)
    ensures o.Done? ==> o.world.script == Authenticate(lib, draw, w).world.script
    ensures o.Done? ==> DecryptedIn(lib, name, w.fs, o.world.fs)
    ensures o.Raised? && o.error == MasterPasswordError ==> Authenticate(lib, draw, w).Raised?
  {
    match Authenticate(lib, draw, w)
    case Raised(w1, e) => Raised(w1, e)
    case Done(w1, _) => DecryptFile(lib, name, w1)
  }

  /** The earlier `fileDecrypt`'s test: the first reply's digest is the stored one. */
  predicate PasswordMatches(lib: Primitives, w: World) {
    MasterFile in w.fs && |w.script| > 0 && lib.digest(w.script[0]) == w.fs[MasterFile]
  }

  /** The earlier `fileDecrypt`: exactly one reply is read; a digest mismatch
      raises at once, with no recovery path and the vault file untouched. */
  function FileDecrypt2(lib: Primitives, name: string, w: World): (o: Outcome<()>)
    ensures |w.script| == 0 ==> o == Raised(w, InputExhausted)
    ensures |w.script| > 0 ==> o.world.script == w.script[1..]
    ensures o.Raised? ==> o.world.fs == w.fs
    ensures MasterFile in w.fs && |w.script| > 0 && lib.digest(w.script[0]) != w.fs[MasterFile] ==>
      o.Raised? && o.error == MasterPasswordError
    ensures o.Done? <==> PasswordMatches(lib, w) && Decryptable(lib, name, w.fs)
    ensures o.Done? ==> DecryptedIn(lib, name, w.fs, o.world.fs)
    ensures o.Raised? && o.error == MasterPasswordError ==> !PasswordMatches(lib, w)
  {
    match Prompt(w)
    case Raised(w1, e) => Raised(w1, e)
    case Done(w1, attempt) =>
      if MasterFile !in w1.fs then Raised(w1, FileNotFound(MasterFile))
      else if w1.fs[MasterFile] == lib.digest(attempt) then DecryptFile(lib, name, w1)
      else Raised(w1, MasterPasswordError)
  }

  /** Whether a revision's authentication lets the user through. */
  predicate Authorised(rev: Revision, lib: Primitives, draw: nat, w: World) {
    match rev
    case V4 => Authenticate(lib, draw, w).Done?
    case V2 => PasswordMatches(lib, w)
  }

  function FileDecrypt(rev: Revision, lib: Primitives, draw: nat, name: string, w: World): (o: Outcome<()>)
    ensures o.Raised? ==> o.world.fs == w.fs
    ensures o.Done? <==> Authorised(rev, lib, draw, w) && Decryptable(lib, name, w.fs)
    ensures o.Done? ==> DecryptedIn(lib, name, w.fs, o.world.fs)
    ensures o.Raised? && o.error == MasterPasswordError ==> !Authorised(rev, lib, draw, w)
  {
    match rev
    case V4 => FileDecrypt4(lib, draw, name, w)
    case V2 => FileDecrypt2(lib, name, w)
  }

  /** What read_csv makes of a file: its rows, or the empty two-column frame when
      the file holds no data. */
  function ReadFrame(lib: Primitives, contents: string): (f: Frame)
    ensures lib.readCsv(contents).None? ==> f == EmptyFrame
    ensures lib.readCsv(contents).Some? ==> f == Frame(Positional, lib.readCsv(contents).value)
  {
    match lib.readCsv(contents)
    case None => EmptyFrame
    case Some(rows) => Frame(Positional, rows)
  }

  /** `fileOpen`: raises when the instance file is missing; decrypts (and so
      authenticates) only when this is not the security file; returns the frame
      read from the file as it then stands. */
  function FileOpen(rev: Revision, lib: Primitives, draw: nat, sys: System, w: World): (o: Outcome<Frame>)
    ensures sys.name !in w.fs ==> o == Raised(w, FileDoesNotExist)
    ensures sys.securityQ && sys.name in w.fs ==> o.world == w && o.Done?
    ensures !sys.securityQ && sys.name in w.fs ==>
      && (o.Done? <==> Authorised(rev, lib, draw, w) && Decryptable(lib, sys.name, w.fs))
      && (o.Done? ==> o.world == FileDecrypt(rev, lib, draw, sys.name, w).world)
    ensures !sys.securityQ && o.Done? ==> DecryptedIn(lib, sys.name, w.fs, o.world.fs)
    ensures o.Raised? ==> o.world.fs == w.fs
    ensures o.Raised? && o.error == MasterPasswordError ==> !sys.securityQ && !Authorised(rev, lib, draw, w)
    ensures o.Done? ==> sys.name in o.world.fs
    ensures o.Done? && lib.readCsv(o.world.fs[sys.name]).None? ==> o.value == EmptyFrame
    ensures o.Done? && lib.readCsv(o.world.fs[sys.name]).Some? ==>
      o.value == Frame(Positional, lib.readCsv(o.world.fs[sys.name]).value)
  {
    if sys.name !in w.fs then Raised(w, FileDoesNotExist)
    else
      var d := if sys.securityQ then Done(w, ()) else FileDecrypt(rev, lib, draw, sys.name, w);
      match d
      case Raised(w1, e) => Raised(w1, e)
      case Done(w1, _) => Done(w1, ReadFrame(lib, w1.fs[sys.name]))
  }

  /** `fileEncrypt`: the key is read and handed to `Fernet`, then the instance
      file is replaced by its encryption under that key. */
  function FileEncrypt(lib: Primitives, name: string, w: World): (o: Outcome<()>)
    ensures o.world.script == w.script
    ensures o.Raised? ==> o.world == w
    ensures o.Done? <==> KeyFile in w.fs && lib.validKey(w.fs[KeyFile]) && name in w.fs
    ensures KeyFile in w.fs && !lib.validKey(w.fs[KeyFile]) ==> o == Raised(w, ValueError)
    ensures o.Done? ==> o.world.fs == w.fs[name := lib.encrypt(w.fs[KeyFile], w.fs[name])]
  {
    if KeyFile !in w.fs then Raised(w, FileNotFound(KeyFile))
    else if !lib.validKey(w.fs[KeyFile]) then Raised(w, ValueError)
    else if name !in w.fs then Raised(w, FileNotFound(name))
    else Done(w.(fs := w.fs[name := lib.encrypt(w.fs[KeyFile], w.fs[name])]), ())
  }

  /** Row 1 (the answers) with every cell replaced by its digest. */
  function Rehash(lib: Primitives, rows: Rows): (r: Rows)
    requires |rows| >= 2
    ensures |r| == |rows| && |r[1]| == |rows[1]|
    ensures forall i :: 0 <= i < |rows| && i != 1 ==> r[i] == rows[i]
    ensures forall j :: 0 <= j < |rows[1]| ==> r[1][j] == lib.digest(rows[1][j])
  {
    rows[1 := seq(|rows[1]|, j requires 0 <= j < |rows[1]| => lib.digest(rows[1][j]))]
  }

  /** `fileClose`: refuses anything but a data frame before writing. A password
      file is written as csv and then encrypted in place with whatever key.key
      then holds; if encryption raises, the plaintext csv stays written. The
      security file gets its answer row digested before it is written. */
  function FileClose(lib: Primitives, sys: System, v: Value, w: World): (o: Outcome<()>)
    ensures v.NotAFrame? ==> o == Raised(w, PandasError)
    ensures o.world.script == w.script
    ensures forall f :: f != sys.name ==> (f in o.world.fs <==> f in w.fs)
    ensures forall f :: f in w.fs && f != sys.name ==> o.world.fs[f] == w.fs[f]
    ensures !sys.securityQ && v.DataFrame? ==>
      var written := w.fs[sys.name := lib.writeCsv(v.frame.rows)];
      && (o.Done? <==> KeyFile in written && lib.validKey(written[KeyFile]))
      && (o.Done? ==> o.world.fs == written[sys.name := lib.encrypt(written[KeyFile], lib.writeCsv(v.frame.rows))])
      && (o.Raised? ==> o.world.fs == written)
    ensures sys.securityQ && v.DataFrame? && |v.frame.rows| < 2 ==> o == Raised(w, IndexError)
    ensures sys.securityQ && v.DataFrame? && |v.frame.rows| >= 2 ==> o.Done?
    ensures sys.securityQ && o.Done? ==>
      |v.frame.rows| >= 2 && o.world.fs == w.fs[sys.name := lib.writeCsv(Rehash(lib, v.frame.rows))]
  {
    match v
    case NotAFrame => Raised(w, PandasError)
    case DataFrame(f) =>
      if !sys.securityQ then
        match FileEncrypt(lib, sys.name, w.(fs := w.fs[sys.name := lib.writeCsv(f.rows)]))
        case Raised(w1, e) => Raised(w1, e)
        case Done(w1, u) => Done(w1, u)
      else if |f.rows| < 2 then Raised(w, IndexError)
      else Done(w.(fs := w.fs[sys.name := lib.writeCsv(Rehash(lib, f.rows))]), ())
  }

  /** The five names factoryReset deletes. */
  function ResetFiles(sys: System): set<string> {
    StandardFiles + {sys.name}
  }

  /** `factoryReset`: deletes the instance file and the four artefacts, then
      provisions again. Afterwards the four artefacts exist with a new key and a
      master password taken from the first reply; a custom-named instance file is
      not recreated; every other file is untouched. */
  function FactoryReset(lib: Primitives, freshKey: string, sys: System, w: World): (o: Outcome<()>)
    ensures o.Done? ==> StandardFiles <= o.world.fs.Keys
    ensures KeyFile in o.world.fs && o.world.fs[KeyFile] == freshKey
    ensures o.Done? ==> |w.script| > 0 && o.world.fs[MasterFile] == lib.digest(w.script[0])
    ensures o.Done? ==> o.world.fs[PasswordFile] == ""
    ensures sys.name !in StandardFiles ==> sys.name !in o.world.fs
    ensures forall f :: f in w.fs && f !in ResetFiles(sys) ==> f in o.world.fs && o.world.fs[f] == w.fs[f]
    ensures o.world.fs.Keys <= (w.fs.Keys - {sys.name}) + StandardFiles
  {
    var cleared := w.fs - ResetFiles(sys);
    ClearedFiles(sys, w.fs);
    FirstTime(lib, freshKey, w.(fs := cleared))
  }

  /** After the deletions none of the five names is left, and every other file
      is untouched. */
  lemma ClearedFiles(sys: System, fs: FileSystem)
    ensures var cleared := fs - ResetFiles(sys);
      && KeyFile !in cleared && MasterFile !in cleared && PasswordFile !in cleared
      && SecurityFile !in cleared && sys.name !in cleared
      && cleared.Keys == fs.Keys - ResetFiles(sys)
      && forall f :: f in fs && f !in ResetFiles(sys) ==> f in cleared && cleared[f] == fs[f]
  {
  }
}

=== FILE: vault_properties.dfy ===
/** Properties that relate several vault operations: what provisioning stores
    is what authentication and recovery check against, closing and decrypting
    undo each other under the cipher's round-trip property, and a factory reset
    provisions from scratch. */
module VaultProperties {
  import opened Common
  import opened Primitives
  import opened Machine
  import opened Provisioning
  import opened Vault
  import Legality

  /** Security-question collection stores the questions in order in row 0 and
      the digest of each answer in row 1, and consumes the replies up to and
      including "stop". */
  lemma ProvisionStoresQuestions(lib: Primitives, freshKey: string, fs: FileSystem,
                                 pairs: seq<QA>, rest: seq<string>)
    requires KeyFile in fs && MasterFile in fs && PasswordFile in fs && SecurityFile !in fs
    requires NoStop(pairs)
    ensures FirstTime(lib, freshKey, World(fs, PairsScript(pairs) + [Stop] + rest))
         == Done(World(fs[SecurityFile := lib.writeCsv(SecurityRows(lib, pairs))], rest), ())
  {
    CollectInvertsScript(pairs, rest);
  }

  /** The master password chosen at provisioning is accepted at the next
      authentication, which then reads nothing else. */
  lemma MasterPasswordAccepted(lib: Primitives, freshKey: string, draw: nat, w: World,
                               p: string, more: seq<string>)
    requires MasterFile !in w.fs && |w.script| > 0 && w.script[0] == p
    requires FirstTime(lib, freshKey, w).Done?
    ensures var fs := FirstTime(lib, freshKey, w).world.fs;
      Authenticate(lib, draw, World(fs, [p] + more)) == Done(World(fs, more), ())
  {
  }

  /** A password whose digest differs from the stored one, followed by any reply
      other than "HELP", is refused before any file is read or written. */
  lemma WrongPasswordRejected(lib: Primitives, draw: nat, fs: FileSystem,
                              attempt: string, reply: string, more: seq<string>)
    requires MasterFile in fs && lib.digest(attempt) != fs[MasterFile]
    requires reply != Help
    ensures Authenticate(lib, draw, World(fs, [attempt, reply] + more))
         == Raised(World(fs, more), MasterPasswordError)
    ensures FileDecrypt4(lib, draw, PasswordFile, World(fs, [attempt, reply] + more))
         == Raised(World(fs, more), MasterPasswordError)
  {
    assert ([attempt, reply] + more)[2..] == more;
  }

  /** Recovery with one stored question: the exact answer gets through, an
      answer with a different digest (for instance a different case) does not. */
  lemma RecoveryOneQuestion(lib: Primitives, draw: nat, fs: FileSystem, wrong: string,
                            answer: string, other: string)
    requires MasterFile in fs && lib.digest(wrong) != fs[MasterFile]
    requires SecurityFile in fs
    requires lib.readCsv(fs[SecurityFile]) == Some([["pet name?"], [lib.digest(answer)]])
    requires lib.digest(other) != lib.digest(answer)
    ensures Authenticate(lib, draw, World(fs, [wrong, Help, answer])) == Done(World(fs, []), ())
    ensures Authenticate(lib, draw, World(fs, [wrong, Help, other])) == Raised(World(fs, []), MasterPasswordError)
  {
    var t: Rows := [["pet name?"], [lib.digest(answer)]];
    assert Width(t) == 1;
    assert PickColumn(draw, 1) == 0;
    assert [wrong, Help, answer][2..] == [answer];
    assert [wrong, Help, other][2..] == [other];
  }

  /** Under an accepted key, the plaintext of a token is the data it was made
      from: `Plaintext` inverts `encrypt`. */
  lemma PlaintextOfToken(lib: Primitives, key: string, data: string)
    requires CipherRoundTrips(lib) && lib.validKey(key)
    ensures Plaintext(lib, key, lib.encrypt(key, data)) == Some(data)
  {
  }

  /** Closing a password file and then decrypting it, after authentication lets
      the user through in either revision, succeeds and leaves exactly the csv
      text that was written in the file, and every other file as closing left it. */
  lemma CloseThenDecryptRestores(rev: Revision, lib: Primitives, draw: nat, name: string,
                                 f: Frame, w: World, replies: seq<string>)
    requires CipherRoundTrips(lib)
    requires name != KeyFile
    requires FileClose(lib, System(name, false), DataFrame(f), w).Done?
    requires var closed := FileClose(lib, System(name, false), DataFrame(f), w).world;
      Authorised(rev, lib, draw, World(closed.fs, replies))
    ensures var closed := FileClose(lib, System(name, false), DataFrame(f), w).world;
      var decrypted := FileDecrypt(rev, lib, draw, name, World(closed.fs, replies));
      && decrypted.Done?
      && decrypted.world.fs == w.fs[name := lib.writeCsv(f.rows)]
  {
    var closed := FileClose(lib, System(name, false), DataFrame(f), w).world;
    var plain := lib.writeCsv(f.rows);
    var written := w.fs[name := plain];
    assert KeyFile in written && lib.validKey(written[KeyFile]);
    var key := w.fs[KeyFile];
    var token := lib.encrypt(key, plain);
    assert closed.fs == w.fs[name := token];
    PlaintextOfToken(lib, key, plain);
    assert Decryptable(lib, name, closed.fs);
    assert closed.fs[name := plain] == w.fs[name := plain];
  }

  /** Closing a password file and opening it again, after authentication lets
      the user through, gives back the rows that were closed, provided the csv
      layer reads back what it wrote for them. */
  lemma CloseThenOpenRestores(rev: Revision, lib: Primitives, draw: nat, name: string,
                              f: Frame, w: World, replies: seq<string>)
    requires CipherRoundTrips(lib) && CsvRoundTrips(lib, f.rows)
    requires name != KeyFile
    requires FileClose(lib, System(name, false), DataFrame(f), w).Done?
    requires var closed := FileClose(lib, System(name, false), DataFrame(f), w).world;
      Authorised(rev, lib, draw, World(closed.fs, replies))
    ensures var closed := FileClose(lib, System(name, false), DataFrame(f), w).world;
      var reopened := FileOpen(rev, lib, draw, System(name, false), World(closed.fs, replies));
      && reopened.Done?
      && reopened.value == Frame(Positional, f.rows)
  {
    CloseThenDecryptRestores(rev, lib, draw, name, f, w, replies);
  }

  /** Opening the security file and closing the same frame unchanged digests the
      stored digests again: recovery afterwards compares the reply's digest with
      the digest of the old stored digest. */
  lemma SecurityReopenRehashes(lib: Primitives, draw: nat, w: World, answer: string, more: seq<string>)
    requires SecurityFile in w.fs
    requires lib.readCsv(w.fs[SecurityFile]).Some?
    requires var t := lib.readCsv(w.fs[SecurityFile]).value;
      |t| >= 2 && Width(t) > 0 && PickColumn(draw, Width(t)) < |t[1]|
      && CsvRoundTrips(lib, Rehash(lib, t))
    ensures
      var sys := System(SecurityFile, true);
      var t := lib.readCsv(w.fs[SecurityFile]).value;
      var afterOpen := FileOpen(V4, lib, draw, sys, w);
      var closed := FileClose(lib, sys, DataFrame(afterOpen.value), afterOpen.world);
      && afterOpen == Done(w, Frame(Positional, t))
      && closed.Done?
      && SecQ(lib, draw, World(closed.world.fs, [answer] + more))
         == Done(World(closed.world.fs, more), lib.digest(answer) == lib.digest(t[1][PickColumn(draw, Width(t))]))
  {
    var sys := System(SecurityFile, true);
    var t := lib.readCsv(w.fs[SecurityFile]).value;
    var r := Rehash(lib, t);
    assert Width(r) == Width(t) by {
      assert r[0] == t[0];
    }
    var closedFs := w.fs[SecurityFile := lib.writeCsv(r)];
    assert lib.readCsv(closedFs[SecurityFile]) == Some(r);
    assert ([answer] + more)[1..] == more;
  }

  /** Constructing a `System` with a legal name in a directory that holds none of
      the four artefacts, answered with a master password, a list of questions
      and "stop", provisions exactly those four files and keeps every other file. */
  lemma InitFromScratch(platform: Legality.Platform, lib: Primitives, freshKey: string,
                        name: string, securityQ: bool, w: World,
                        p: string, pairs: seq<QA>, rest: seq<string>)
    requires Legality.CheckLegality(platform, name) == Success(true)
    requires KeyFile !in w.fs && MasterFile !in w.fs && PasswordFile !in w.fs && SecurityFile !in w.fs
    requires NoStop(pairs)
    requires w.script == [p] + PairsScript(pairs) + [Stop] + rest
    ensures Init(platform, lib, freshKey, name, securityQ, w) == Done(World(
      w.fs[KeyFile := freshKey][MasterFile := lib.digest(p)]
        [PasswordFile := ""][SecurityFile := lib.writeCsv(SecurityRows(lib, pairs))], rest),
      System(name, securityQ))
  {
    var fs1 := w.fs[KeyFile := freshKey];
    assert ProvisionKey(freshKey, w) == World(fs1, w.script);
    assert FirstTime(lib, freshKey, w) == ProvisionRest(lib, World(fs1, w.script));
    ProvisionFromScratch(lib, fs1, p, pairs, rest);
  }

  /** A factory reset that is answered with a master password, a list of
      questions and "stop" ends with exactly: the untouched other files, the new
      key, that password's digest, an empty vault file and those questions. */
  lemma FactoryResetReprovisions(lib: Primitives, freshKey: string, sys: System, w: World,
                                 p: string, pairs: seq<QA>, rest: seq<string>)
    requires NoStop(pairs)
    requires w.script == [p] + PairsScript(pairs) + [Stop] + rest
    ensures FactoryReset(lib, freshKey, sys, w) == Done(World(
      (w.fs - ResetFiles(sys))[KeyFile := freshKey][MasterFile := lib.digest(p)]
        [PasswordFile := ""][SecurityFile := lib.writeCsv(SecurityRows(lib, pairs))], rest), ())
  {
    var fs0 := w.fs - ResetFiles(sys);
    assert KeyFile !in fs0 && MasterFile !in fs0 && PasswordFile !in fs0 && SecurityFile !in fs0;
    var fs1 := fs0[KeyFile := freshKey];
    assert ProvisionKey(freshKey, w.(fs := fs0)) == World(fs1, w.script);
    assert FactoryReset(lib, freshKey, sys, w) == ProvisionRest(lib, World(fs1, w.script));
    ProvisionFromScratch(lib, fs1, p, pairs, rest);
  }

  /** With mpass.txt, password.csv and security.csv all missing, the last three
      provisioning steps consume the password, the pairs and "stop", and write
      exactly those three files. */
  lemma ProvisionFromScratch(lib: Primitives, fs: FileSystem, p: string, pairs: seq<QA>, rest: seq<string>)
    requires MasterFile !in fs && PasswordFile !in fs && SecurityFile !in fs
    requires NoStop(pairs)
    ensures ProvisionRest(lib, World(fs, [p] + PairsScript(pairs) + [Stop] + rest)) == Done(World(
      fs[MasterFile := lib.digest(p)][PasswordFile := ""][SecurityFile := lib.writeCsv(SecurityRows(lib, pairs))], rest), ())
  {
    var script := [p] + PairsScript(pairs) + [Stop] + rest;
    var tail := PairsScript(pairs) + [Stop] + rest;
    assert script[1..] == tail;
    var fs2 := fs[MasterFile := lib.digest(p)];
    assert ProvisionMaster(lib, World(fs, script)) == Done(World(fs2, tail), ());
    var fs3 := fs2[PasswordFile := ""];
    assert ProvisionVault(World(fs2, tail)) == World(fs3, tail);
    CollectInvertsScript(pairs, rest);
    assert ProvisionSecurity(lib, World(fs3, tail))
        == Done(World(fs3[SecurityFile := lib.writeCsv(SecurityRows(lib, pairs))], rest), ());
  }
}
